=== FILE: README.md ===
# Article controller: unique slugs over an article table

This project is a Dafny model of the article controller of a Laravel blog
admin (`app/Http/Controllers/ArticleController.php`). Its one real
algorithm is `generateUniqueSlug`. It takes the base slug of a title and
probes `base`, `base-1`, `base-2`, … until it finds a candidate that no
other article holds. Around it sit the state-changing actions `store`,
`update` and `destroy`, and the public lookup `show`.

The article table is modelled as an immutable value
`Db(rows: seq<Article>, nextId: nat)`:

- `rows` holds the rows in insertion order. A later row is a more recent
  article, so row order stands in for `created_at` and `latest()`.
- `nextId` is the auto-increment counter. Ids are positive and never reused.

Every action is a pure function from a table to a `Step`. A `Step` holds the
new table and an outcome: the affected id, a validation error or a 404. The
table invariant `Valid` says slugs are unique, ids are unique, and every id
was already issued by the counter. Every action preserves it.

Modules, one per concern:

- `Common` (`common.dfy`): `Option` and `Result`.
- `Decimal` (`decimal.dfy`): PHP's decimal rendering of the counter in
  `"{$original}-{$counter}"`, with its inverse `Parse` and the injectivity
  that the probe relies on.
- `ArticleStore` (`store.dfy`): the record and the table. It defines the
  `Taken` query, including PHP's truthiness test on `$excludeId`, and the
  `Valid` invariant. It also defines first-match lookup and
  delete-by-id.
- `SlugProbe` (`slug.dfy`): the probe as a loop (`GenerateUniqueSlug`) and as
  a recursive function (`UniqueSlug`). It proves termination and the
  `|rows| + 1` probe bound.
- `Validation` (`validation.dfy`): the rules `title` required|min:5|max:255
  and `content` required, with field-level violations.
- `ArticleController` (`controller.dfy`): `Store`, `Update`, `Destroy`,
  `Show`.
- `ArticleInvariants` (`invariants.dfy`): invariant preservation and
  cross-action properties.

`Str::slug` is a library call whose source is not part of this model. It
enters as a parameter `slugify: string -> string`. Slug comparisons are on
real strings, so a different title whose base slug is itself
`hello-world-1` does collide with the probe's second candidate.

Three details of the code that the model keeps:

- `show` excludes suggestions by slug, not by id (line 167).
- `required` (lines 55-56) rejects a title or content that is blank after
  PHP `trim`, not only an empty one.
- Once `required` fails on a field, the validator stops checking that field.
  So a missing or blank title reports no `min` or `max` failure (line 55).

## Model

| member | source | states |
|---|---|---|
| Decimal.NatToString | app/Http/Controllers/ArticleController.php:192 | The counter is rendered as a non-empty digit string with no leading zero. It is one digit exactly when the counter is below 10. |
| Decimal.ParseNatToString | app/Http/Controllers/ArticleController.php:192 | Round trip: parsing the rendered counter gives back the counter. |
| Decimal.NatToStringParse | app/Http/Controllers/ArticleController.php:192 | Round trip the other way: every canonical digit string (non-empty, no leading zero) is the rendering of its parsed value. |
| Decimal.NatToStringInjective | app/Http/Controllers/ArticleController.php:192 | Distinct counters render as distinct suffixes. |
| SlugProbe.CandidatesDistinct | app/Http/Controllers/ArticleController.php:184-192 | The probed strings `base`, `base-1`, `base-2`, … are pairwise distinct, for any base. |
| SlugProbe.BlockersShrink | app/Http/Controllers/ArticleController.php:187-193 | A probe that hits uses up the article holding that candidate. The finite set of articles that still block a later candidate strictly shrinks, which is why the loop terminates. |
| SlugProbe.ProbeFrom | app/Http/Controllers/ArticleController.php:187-194 | From probe index k, the result is the first index ≥ k whose candidate is free. Every candidate between k and it is held by a non-excluded article. |
| SlugProbe.UniqueSlug | app/Http/Controllers/ArticleController.php:181-197 | The returned slug is held by no article other than the excluded one. If the base is free, the base is returned unchanged. Otherwise the result is `base-k` for some k ≥ 1, and every `base-j` with 1 ≤ j < k is held by another article. |
| SlugProbe.UniqueSlugIsFirstFree | app/Http/Controllers/ArticleController.php:185-196 | A string is the returned slug if and only if it is the candidate at the first free index. So the first free suffix wins and no other string is returned. |
| SlugProbe.ProbeBound | app/Http/Controllers/ArticleController.php:187-194 | The winning index is at most the number of articles, so a free candidate is found within `|rows| + 1` probes. |
| SlugProbe.GenerateUniqueSlug | app/Http/Controllers/ArticleController.php:181-197 | The probing loop itself (start at the base, counter from 1, candidate `base-counter`) terminates. It returns the same slug as the first-free definition: a slug no other article holds, and the base itself when the base is free. |
| ArticleStore.FirstWhere | app/Http/Controllers/ArticleController.php:164 | `->first()` returns the earliest row meeting the condition. It returns none exactly when no row meets it. |
| ArticleStore.Kept | app/Http/Controllers/ArticleController.php:132 | The positions that survive a delete-by-id: exactly the rows with another id, listed in strictly increasing order. |
| ArticleStore.Without | app/Http/Controllers/ArticleController.php:132 | After delete-by-id, a record remains if and only if it was stored and has a different id. The remaining rows keep their original relative order, so their recency is unchanged. |
| ArticleStore.WithoutCount | app/Http/Controllers/ArticleController.php:132 | With unique ids, deleting an existing id removes exactly one row. |
| ArticleStore.WithoutSlugsUnique | app/Http/Controllers/ArticleController.php:132 | Deleting rows never creates a slug clash. |
| Validation.Validate | app/Http/Controllers/ArticleController.php:54-58 | Input is accepted if and only if the title is present, not blank and 5 to 255 characters long, and the content is present and not blank. On acceptance, the validated title and content are passed on unchanged. On rejection, the violations are non-empty and name exactly the failed rules per field: `required`, `min` or `max` on the title, and `required` on the content. No other violation, such as a `min` on the content, is ever reported. |
| ArticleController.Store | app/Http/Controllers/ArticleController.php:52-82 | An invalid request is rejected (422) with the table unchanged, carrying exactly the validator's field-level violations. A valid one appends exactly one article and leaves the earlier rows as they were. The new article gets the next auto-increment id, the request's title and content, the uploaded path or null, the current user as author, and the probed slug of its title, which no existing article holds. |
| ArticleController.Update | app/Http/Controllers/ArticleController.php:98-125 | An unknown id gives 404, checked before validation. For a found id, an invalid request gives 422 carrying exactly the validator's violations. Both leave the table unchanged. Otherwise only that article changes, and only in title, slug, content and image. Id and author stay the same, and the image path is kept unless a file was uploaded. An unchanged title keeps the slug exactly. A changed title has its slug re-probed excluding the article's own id, and no other article holds the new slug. |
| ArticleController.Destroy | app/Http/Controllers/ArticleController.php:130-134 | An unknown id gives 404 with the table unchanged. An existing id always succeeds with that id. Then the remaining records are exactly the others, in their original relative order, and the id counter is not rewound. |
| ArticleController.LatestOthers | app/Http/Controllers/ArticleController.php:167-170 | Picks at most the limit, newest first (strictly decreasing row positions), each with a slug different from the requested one. |
| ArticleController.LatestOthersNewest | app/Http/Controllers/ArticleController.php:167-170 | No article is passed over for an older one. Any article with another slug that was not picked is older than every pick, and the limit was reached. |
| ArticleController.Show | app/Http/Controllers/ArticleController.php:162-176 | 404 if and only if no article holds the slug. Otherwise it returns a stored article with that slug and at most 2 suggestions. Each suggestion summarises a stored article and never has the requested slug. The suggestions are exactly the picks of `LatestOthers`, in order: the newest other articles first, with no newer one passed over. |
| ArticleInvariants.StorePreservesValid | app/Http/Controllers/ArticleController.php:60-79 | If slugs (and ids) were unique before `store`, they are unique after it. |
| ArticleInvariants.UpdatePreservesValid | app/Http/Controllers/ArticleController.php:106-122 | If slugs (and ids) were unique before `update`, they are unique after it. |
| ArticleInvariants.DestroyPreservesValid | app/Http/Controllers/ArticleController.php:130-133 | If slugs (and ids) were unique before `destroy`, they are unique after it. |
| ArticleInvariants.DestroyRemovesOne | app/Http/Controllers/ArticleController.php:130-133 | Destroying an existing article succeeds and removes exactly one row. |
| ArticleInvariants.DestroyThenShowNotFound | app/Http/Controllers/ArticleController.php:162-164 | After an article is destroyed, looking up its slug yields 404. |
| ArticleInvariants.ShowFindsRow | app/Http/Controllers/ArticleController.php:164 | With unique slugs, looking up a stored article's slug returns that very article. |
| ArticleInvariants.StoreThenShow | app/Http/Controllers/ArticleController.php:73-79 | Right after a successful `store`, the public lookup of the new slug returns the new article. |
| ArticleInvariants.UpdateKeepsOwnBaseSlug | app/Http/Controllers/ArticleController.php:106-109 | A retitling whose base slug equals the article's current slug gets that slug back, because the probe excludes the article's own id. |
| ArticleInvariants.StoreTakesFirstFree | app/Http/Controllers/ArticleController.php:60 | `store` gives the new article the candidate at the first free index of its title's base slug. |
| ArticleInvariants.RepeatedTitleExample | app/Http/Controllers/ArticleController.php:185-193 | Storing "Hello World" three times into an empty table (with base slug `hello-world`) yields `hello-world`, `hello-world-1` and `hello-world-2`. |

## Left out

- `Str::slug` (line 183) is a framework library outside this repository, with Unicode transliteration rules. It is the parameter `slugify`, and no property of it is assumed.
- The permission middleware (lines 13-20) is framework plumbing. The model starts after authorisation has passed, so the current user is a plain `nat` parameter, never null.
- `index` (lines 26-39) is left out: SQL `LIKE` search, pagination and rendering.
- `publicIndex` (lines 139-156) is left out: pagination, plus excerpt building with `strip_tags` and `Str::limit`, which are HTML parsing and multibyte truncation in libraries outside this model.
- `create` and `edit` (lines 44-47, 88-93) only render forms. Inertia rendering, redirects and flash messages are left out everywhere.
- Image upload and storage (lines 66-70, 113-115) are file I/O. An upload enters as the path the file store returned, or none.
- The image validation rule `nullable|image|mimes:...|max:2048` (lines 57, 103) needs content sniffing and file sizes, so it is not checked.
- `created_at` and `updated_at` are not stored. Recency is row order, which is insertion order. `latest()` orders by `created_at`, which is stored to the second. SQL leaves the order of articles created in the same second open. The model breaks such ties by insertion order, so `show` returns one definite pair of suggestions where the database may return another.
- The `author` eager load (lines 28, 164) is left out; the record keeps only the author id.
- The check-then-insert race between two concurrent `store` calls is a concurrency concern. The schema is not part of the source. Only a unique index on `slug`, if the schema has one, would guard it. The model is sequential.
- The framework's global `TrimStrings` and `ConvertEmptyStringsToNull` middleware are not modelled. The model sees field values as they reach the validator.
- Slug equality (lines 164, 167, 188) is exact string equality. The database's collation is not visible in the source, and collations that fold case or ignore trailing spaces (such as MySQL's defaults) are not modelled. Under one, `show` of `Hello-World` would find the `hello-world` article, and the probe would treat such slugs as taken.
- ArticleController.Show: without unique slugs, `first()` carries no ordering in SQL. The model picks the earliest row. Under `Valid` only one row can match.

=== FILE: common.dfy ===
/** Small wrapper types shared by the article-store model. */
module Common {

  /** A value that may be absent: a missing request field, a null image path,
      an id that is not given. */
  datatype Option<+T> = None | Some(value: T)

  /** The outcome of a handler: a value, or the error the framework turns into
      an HTTP error response. */
  datatype Result<+T, +E> = Ok(value: T) | Err(error: E)
}

=== FILE: controller.dfy ===
/** The state-changing actions of the article controller (`store`, `update`,
    `destroy`) and the public lookup `show`, as pure transitions over the
    article table. Permission checks, rendering and redirects are not part of
    this model. */
module ArticleController {
  import opened Common
  import opened ArticleStore
  import opened SlugProbe
  import opened Validation

  /** A create/update form submission. `upload` is the relative path the file
      store returned for an uploaded image (`articles/<name>`), or None when no
      file came with the request. */
  datatype Request = Request(title: Option<string>, content: Option<string>, upload: Option<string>)

  /** Validation failure (HTTP 422) or a missing article (HTTP 404). */
  datatype Error = Invalid(violations: set<Violation>) | NotFound

  /** The table after an action, and the action's outcome: the id of the
      article it created, changed or removed, or the error. */
  datatype Step = Step(db: Db, outcome: Result<nat, Error>)

  /** The fields a suggestion carries (`get(['id','title','slug','content','image'])`). */
  datatype Summary = Summary(id: nat, title: string, slug: string, content: string, image: Option<string>)

  /** What `show` hands to the page: the article and the suggestions. */
  datatype Page = Page(article: Article, suggestions: seq<Summary>)

  const SuggestionCount: nat := 2

  function Summarize(a: Article): Summary {
    Summary(a.id, a.title, a.slug, a.content, a.image)
  }

  /** `store`: validate, pick a fresh slug for the title, and insert the new
      article under the next auto-increment id, authored by `user`. */
  function Store(db: Db, req: Request, user: nat, slugify: string -> string): (s: Step)
    ensures s.outcome.Ok? <==> Validate(req.title, req.content).Ok?
    ensures s.outcome.Err? ==> s == Step(db, Err(Invalid(Validate(req.title, req.content).error)))
    ensures s.outcome.Ok? ==>
      && s.outcome.value == db.nextId
      && s.db.nextId == db.nextId + 1
      && |s.db.rows| == |db.rows| + 1
      && s.db.rows[..|db.rows|] == db.rows
    ensures s.outcome.Ok? ==>
      var a := s.db.rows[|db.rows|];
      && a.id == db.nextId
      && a.title == req.title.value
      && a.content == req.content.value
      && a.author == user
      && a.image == req.upload
      && a.slug == UniqueSlug(db.rows, slugify(a.title), None)
      && !Taken(db.rows, a.slug, None)
  {
    match Validate(req.title, req.content)
    case Err(violations) => Step(db, Err(Invalid(violations)))
    case Ok(input) =>
      var slug := UniqueSlug(db.rows, slugify(input.title), None);
      var a := Article(db.nextId, input.title, slug, input.content, req.upload, user);
      Step(Db(db.rows + [a], db.nextId + 1), Ok(db.nextId))
  }

  /** The row an update writes: title, slug, content and image replaced, id and
      author kept. */
  function Edited(db: Db, was: Article, input: Input, upload: Option<string>, slugify: string -> string): Article {
    var slug := if input.title != was.title then UniqueSlug(db.rows, slugify(input.title), Some(was.id)) else was.slug;
    var image := if upload.Some? then upload else was.image;
    was.(title := input.title, slug := slug, content := input.content, image := image)
  }

  /** `update`: resolve the article by id (404 otherwise), validate, then
      rewrite its title, slug, content and image. */
  function Update(db: Db, id: nat, req: Request, slugify: string -> string): (s: Step)
    ensures FindById(db.rows, id).None? ==> s == Step(db, Err(NotFound))
    ensures s.outcome.Err? ==> s.db == db
    ensures FindById(db.rows, id).Some? ==> (s.outcome.Ok? <==> Validate(req.title, req.content).Ok?)
    ensures FindById(db.rows, id).Some? && Validate(req.title, req.content).Err? ==>
      s == Step(db, Err(Invalid(Validate(req.title, req.content).error)))
    ensures s.outcome.Ok? ==>
      var i := FindById(db.rows, id).value;
      && s.outcome.value == id
      && s.db.nextId == db.nextId
      && |s.db.rows| == |db.rows|
      && forall k :: 0 <= k < |db.rows| && k != i ==> s.db.rows[k] == db.rows[k]
    ensures s.outcome.Ok? ==>
      var i := FindById(db.rows, id).value;
      var was, now := db.rows[i], s.db.rows[i];
      && now.id == was.id == id
      && now.author == was.author
      && now.title == req.title.value
      && now.content == req.content.value
      && now.image == (if req.upload.Some? then req.upload else was.image)
      && (now.title == was.title ==> now.slug == was.slug)
      && (now.title != was.title ==>
            now.slug == UniqueSlug(db.rows, slugify(now.title), Some(id))
            && !Taken(db.rows, now.slug, Some(id)))
  {
    match FindById(db.rows, id)
    case None => Step(db, Err(NotFound))
    case Some(i) =>
      match Validate(req.title, req.content)
      case Err(violations) => Step(db, Err(Invalid(violations)))
      case Ok(input) =>
        Step(db.(rows := db.rows[i := Edited(db, db.rows[i], input, req.upload, slugify)]), Ok(id))
  }

  /** `destroy`: resolve the article by id (404 otherwise) and delete it. */
  function Destroy(db: Db, id: nat): (s: Step)
    ensures FindById(db.rows, id).None? <==> s == Step(db, Err(NotFound))
    ensures FindById(db.rows, id).Some? ==> s.outcome == Ok(id)
    ensures s.outcome.Ok? ==> s.outcome.value == id && s.db.nextId == db.nextId
    ensures s.outcome.Ok? ==> forall a :: a in s.db.rows <==> a in db.rows && a.id != id
    ensures s.outcome.Ok? ==> exists f :: OrderedRemoval(db.rows, id, s.db.rows, f)
  {
    match FindById(db.rows, id)
    case None => Step(db, Err(NotFound))
    case Some(_) => Step(db.(rows := Without(db.rows, id)), Ok(id))
  }

  /** The indices of the `limit` most recent rows below `hi` whose slug is not
      `slug`, newest first (`where('slug', '!=', $slug)->latest()->take(n)`). */
  function LatestOthers(rows: seq<Article>, slug: string, limit: nat, hi: nat): (r: seq<nat>)
    requires hi <= |rows|
    ensures |r| <= limit
    ensures forall a :: 0 <= a < |r| ==> r[a] < hi && rows[r[a]].slug != slug
    ensures forall a, b :: 0 <= a < b < |r| ==> r[a] > r[b]
  {
    if hi == 0 || limit == 0 then []
    else if rows[hi - 1].slug != slug then
      var rest := LatestOthers(rows, slug, limit - 1, hi - 1);
      var r := [hi - 1] + rest;
      assert forall a :: 1 <= a < |r| ==> r[a] == rest[a - 1];
      r
    else LatestOthers(rows, slug, limit, hi - 1)
  }

  /** No article is passed over for an older one: a row below `hi` with another
      slug that was not picked is older than every pick, and the limit was reached. */
  lemma {:induction false} LatestOthersNewest(rows: seq<Article>, slug: string, limit: nat, hi: nat, k: nat)
    requires hi <= |rows|
    requires k < hi && rows[k].slug != slug
    ensures var r := LatestOthers(rows, slug, limit, hi);
      k !in r ==> |r| == limit && (limit > 0 ==> k < r[|r| - 1])
  {
    if hi > 0 && limit > 0 && k < hi - 1 {
      if rows[hi - 1].slug != slug {
        LatestOthersNewest(rows, slug, limit - 1, hi - 1, k);
        var rest := LatestOthers(rows, slug, limit - 1, hi - 1);
        assert k !in [hi - 1] + rest ==> k !in rest;
      } else {
        LatestOthersNewest(rows, slug, limit, hi - 1, k);
      }
    }
  }

  /** `show`: the article with the slug (404 if none), and up to two other
      articles, newest first, as suggestions. */
  function Show(db: Db, slug: string): (r: Result<Page, Error>)
    ensures r.Err? <==> !Taken(db.rows, slug, None)
    ensures r.Err? ==> r.error == NotFound
    ensures r.Ok? ==> r.value.article in db.rows && r.value.article.slug == slug
    ensures r.Ok? ==> |r.value.suggestions| <= SuggestionCount
    ensures r.Ok? ==> forall s :: s in r.value.suggestions ==> s.slug != slug
    ensures r.Ok? ==> forall s :: s in r.value.suggestions ==>
              exists k :: 0 <= k < |db.rows| && s == Summarize(db.rows[k])
    ensures r.Ok? ==>
      var p := LatestOthers(db.rows, slug, SuggestionCount, |db.rows|);
      && |r.value.suggestions| == |p|
      && forall k :: 0 <= k < |p| ==> r.value.suggestions[k] == Summarize(db.rows[p[k]])
  {
    match FindBySlug(db.rows, slug)
    case None => Err(NotFound)
    case Some(i) =>
      var picked := LatestOthers(db.rows, slug, SuggestionCount, |db.rows|);
      Ok(Page(db.rows[i], seq(|picked|, (k: int) requires 0 <= k < |picked| => Summarize(db.rows[picked[k]]))))
  }
}

=== FILE: decimal.dfy ===
/** Decimal rendering of natural numbers, as PHP writes an integer into a
    string by interpolation (`"{$original}-{$counter}"`): no sign, no leading
    zeros. The slug probe needs this rendering to be injective. */
module Decimal {

  predicate IsDigit(c: char) {
    '0' <= c <= '9'
  }

  predicate IsDigits(s: string) {
    forall i :: 0 <= i < |s| ==> IsDigit(s[i])
  }

  function DigitValue(c: char): (d: nat)
    requires IsDigit(c)
    ensures d < 10
  {
    c as int - '0' as int
  }

  function DigitChar(d: nat): (c: char)
    requires d < 10
    ensures IsDigit(c)
    ensures DigitValue(c) == d
  {
    ('0' as int + d) as char
  }

  /** The canonical decimal form of `n`. */
  function NatToString(n: nat): (s: string)
    ensures 1 <= |s| && IsDigits(s)
    ensures |s| == 1 <==> n < 10
    ensures s[0] == '0' ==> n == 0
  {
    if n < 10 then [DigitChar(n)] else NatToString(n / 10) + [DigitChar(n % 10)]
  }

  /** Reads a string of digits as a decimal number (the empty string reads as 0). */
  function Parse(s: string): nat
    requires IsDigits(s)
  {
    if |s| == 0 then 0 else Parse(s[..|s| - 1]) * 10 + DigitValue(s[|s| - 1])
  }

  /** Parsing undoes rendering. */
  lemma {:induction false} ParseNatToString(n: nat)
    ensures Parse(NatToString(n)) == n
  {
    if n >= 10 {
      var s := NatToString(n);
      assert s[..|s| - 1] == NatToString(n / 10);
      ParseNatToString(n / 10);
    }
  }

  /** Different numbers render as different strings. */
  lemma NatToStringInjective(a: nat, b: nat)
    ensures NatToString(a) == NatToString(b) ==> a == b
  {
    ParseNatToString(a);
    ParseNatToString(b);
  }

  /** A digit string with no superfluous leading zero has a positive value
      whenever its first digit is not zero. */
  lemma {:induction false} ParsePositive(s: string)
    requires IsDigits(s) && 1 <= |s| && s[0] != '0'
    ensures Parse(s) >= 1
  {
    if |s| > 1 {
      ParsePositive(s[..|s| - 1]);
    } else {
      assert DigitValue(s[0]) != 0;
    }
  }

  /** Rendering undoes parsing on canonical digit strings: every non-empty digit
      string without a leading zero is the rendering of exactly one number. */
  lemma {:induction false} NatToStringParse(s: string)
    requires IsDigits(s) && 1 <= |s|
    requires |s| > 1 ==> s[0] != '0'
    ensures NatToString(Parse(s)) == s
  {
    var last := s[|s| - 1];
    if |s| == 1 {
      assert [DigitChar(DigitValue(last))] == s;
    } else {
      var p := s[..|s| - 1];
      ParsePositive(p);
      NatToStringParse(p);
      var n := Parse(s);
      assert n / 10 == Parse(p) && n % 10 == DigitValue(last);
      assert DigitChar(DigitValue(last)) == last;
      assert p + [last] == s;
    }
  }
}

=== FILE: invariants.dfy ===
/** Properties that relate the controller's actions to each other and to the
    table invariant `Valid` (unique slugs, unique issued ids). */
module ArticleInvariants {
  import opened Common
  import opened ArticleStore
  import opened SlugProbe
  import opened Validation
  import opened Decimal
  import opened ArticleController

  /** `store` keeps slugs unique: the new slug is held by no existing row. */
  lemma StorePreservesValid(db: Db, req: Request, user: nat, slugify: string -> string)
    requires Valid(db)
    ensures Valid(Store(db, req, user, slugify).db)
  {
  }

  /** `update` keeps slugs unique: an unchanged title keeps the row's own slug,
      and a regenerated slug is held by no other row. */
  lemma UpdatePreservesValid(db: Db, id: nat, req: Request, slugify: string -> string)
    requires Valid(db)
    ensures Valid(Update(db, id, req, slugify).db)
  {
  }

  /** `destroy` keeps the table valid. */
  lemma DestroyPreservesValid(db: Db, id: nat)
    requires Valid(db)
    ensures Valid(Destroy(db, id).db)
  {
    var s := Destroy(db, id);
    if s.outcome.Ok? {
      WithoutSlugsUnique(db.rows, id);
      WithoutIdsUnique(db.rows, id);
      forall k | 0 <= k < |s.db.rows|
        ensures 1 <= s.db.rows[k].id < s.db.nextId
      {
        assert s.db.rows[k] in db.rows;
      }
    }
  }

  /** `destroy` removes exactly one row when the id exists. */
  lemma DestroyRemovesOne(db: Db, id: nat)
    requires Valid(db)
    requires FindById(db.rows, id).Some?
    ensures Destroy(db, id).outcome == Ok(id)
    ensures |Destroy(db, id).db.rows| == |db.rows| - 1
  {
    WithoutCount(db.rows, id, FindById(db.rows, id).value);
  }

  /** After `destroy`, looking the removed article up by its slug fails. */
  lemma DestroyThenShowNotFound(db: Db, id: nat, i: nat)
    requires Valid(db)
    requires i < |db.rows| && db.rows[i].id == id
    ensures Show(Destroy(db, id).db, db.rows[i].slug) == Err(NotFound)
  {
  }

  /** Under unique slugs, `show` of a row's slug returns that row. */
  lemma ShowFindsRow(db: Db, i: nat)
    requires Valid(db)
    requires i < |db.rows|
    ensures Show(db, db.rows[i].slug).Ok?
    ensures Show(db, db.rows[i].slug).value.article == db.rows[i]
  {
  }

  /** After a successful `store`, `show` of the new slug returns the new article. */
  lemma StoreThenShow(db: Db, req: Request, user: nat, slugify: string -> string)
    requires Valid(db)
    requires Validate(req.title, req.content).Ok?
    ensures var s := Store(db, req, user, slugify);
      Show(s.db, s.db.rows[|db.rows|].slug).Ok?
      && Show(s.db, s.db.rows[|db.rows|].slug).value.article == s.db.rows[|db.rows|]
  {
  }

  /** An update whose new title slugifies to the row's current slug gets that
      slug back: the row's own id is excluded from the probe. */
  lemma UpdateKeepsOwnBaseSlug(db: Db, id: nat, req: Request, slugify: string -> string, i: nat)
    requires Valid(db)
    requires i < |db.rows| && db.rows[i].id == id
    requires Validate(req.title, req.content).Ok?
    requires slugify(req.title.value) == db.rows[i].slug
    ensures Update(db, id, req, slugify).outcome == Ok(id)
    ensures Update(db, id, req, slugify).db.rows[i].slug == db.rows[i].slug
  {
  }

  /** `store` gives the new article the first free candidate of its title's base slug. */
  lemma StoreTakesFirstFree(db: Db, req: Request, user: nat, slugify: string -> string, k: nat)
    requires Validate(req.title, req.content).Ok?
    requires FirstFree(db.rows, slugify(req.title.value), None, k)
    ensures Store(db, req, user, slugify).db.rows[|db.rows|].slug == Candidate(slugify(req.title.value), k)
  {
  }

  /** Three articles stored under the same title receive `hello-world`,
      `hello-world-1` and `hello-world-2`, in that order. */
  lemma RepeatedTitleExample(slugify: string -> string, user: nat)
    requires slugify("Hello World") == "hello-world"
    ensures var req := Request(Some("Hello World"), Some("Body"), None);
      var s1 := Store(Empty, req, user, slugify);
      var s2 := Store(s1.db, req, user, slugify);
      var s3 := Store(s2.db, req, user, slugify);
      && s3.outcome == Ok(3)
      && |s3.db.rows| == 3
      && s3.db.rows[0].slug == "hello-world"
      && s3.db.rows[1].slug == "hello-world-1"
      && s3.db.rows[2].slug == "hello-world-2"
  {
    var base := "hello-world";
    var req := Request(Some("Hello World"), Some("Body"), None);
    assert !IsTrimmed(req.title.value[0]) && !IsTrimmed(req.content.value[0]);
    assert Validate(req.title, req.content).Ok?;
    assert Candidate(base, 1) == "hello-world-1" by { assert NatToString(1) == "1"; }
    assert Candidate(base, 2) == "hello-world-2" by { assert NatToString(2) == "2"; }

    var s1 := Store(Empty, req, user, slugify);
    StoreTakesFirstFree(Empty, req, user, slugify, 0);
    var r1 := s1.db.rows;
    assert |r1| == 1 && r1[0].slug == base;

    assert FirstFree(r1, base, None, 1) by {
      assert Hit(r1, base, None, 0);
    }
    var s2 := Store(s1.db, req, user, slugify);
    StoreTakesFirstFree(s1.db, req, user, slugify, 1);
    var r2 := s2.db.rows;
    assert |r2| == 2 && r2[0].slug == base && r2[1].slug == "hello-world-1";

    assert FirstFree(r2, base, None, 2) by {
      assert Hit(r2, base, None, 0);
      assert Hit(r2, base, None, 1);
      assert forall k :: 0 <= k < |r2| ==> r2[k].slug != "hello-world-2";
    }
    StoreTakesFirstFree(s2.db, req, user, slugify, 2);
  }
}

=== FILE: slug.dfy ===
/** `generateUniqueSlug`: probe `base`, `base-1`, `base-2`, ... and return the
    first candidate that no row other than the excluded one holds. */
module SlugProbe {
  import opened Common
  import opened Decimal
  import opened ArticleStore

  /** The k-th string the probe tries: the base itself, then `base-k`. */
  function Candidate(base: string, k: nat): string {
    if k == 0 then base else base + "-" + NatToString(k)
  }

  /** The candidates are pairwise distinct strings. */
  lemma CandidatesDistinct(base: string, j: nat, k: nat)
    ensures Candidate(base, j) == Candidate(base, k) ==> j == k
  {
    if Candidate(base, j) == Candidate(base, k) && j != 0 && k != 0 {
      var n := |base| + 1;
      var cj, ck := Candidate(base, j), Candidate(base, k);
      assert cj[n..] == NatToString(j);
      assert ck[n..] == NatToString(k);
      NatToStringInjective(j, k);
    }
  }

  /** The j-th candidate is already held by a row that is not excluded. */
  predicate Hit(rows: seq<Article>, base: string, exclude: Option<nat>, j: nat) {
    Taken(rows, Candidate(base, j), exclude)
  }

  /** `k` is the first index whose candidate is free. */
  ghost predicate FirstFree(rows: seq<Article>, base: string, exclude: Option<nat>, k: nat) {
    && !Hit(rows, base, exclude, k)
    && forall j :: 0 <= j < k ==> Hit(rows, base, exclude, j)
  }

  /** There is at most one first free index. */
  lemma FirstFreeUnique(rows: seq<Article>, base: string, exclude: Option<nat>, j: nat, k: nat)
    requires FirstFree(rows, base, exclude, j) && FirstFree(rows, base, exclude, k)
    ensures j == k
  {
  }

  /** The rows (by index) that still block some candidate from the k-th on.
      It is finite and shrinks on every probe that hits, which bounds the loop. */
  ghost function Blockers(rows: seq<Article>, base: string, exclude: Option<nat>, k: nat): set<int> {
    set i | 0 <= i < |rows| && Blocks(rows, base, exclude, k, i)
  }

  /** Row i is not excluded and holds some candidate from the k-th on. */
  ghost predicate Blocks(rows: seq<Article>, base: string, exclude: Option<nat>, k: nat, i: int)
    requires 0 <= i < |rows|
  {
    !Excluded(exclude, rows[i].id) && exists j :: k <= j && Candidate(base, j) == rows[i].slug
  }

  /** A probe that hits removes its holder from the blockers. */
  lemma BlockersShrink(rows: seq<Article>, base: string, exclude: Option<nat>, k: nat)
    requires Hit(rows, base, exclude, k)
    ensures Blockers(rows, base, exclude, k + 1) < Blockers(rows, base, exclude, k)
  {
    var i :| 0 <= i < |rows| && rows[i].slug == Candidate(base, k) && !Excluded(exclude, rows[i].id);
    assert i in Blockers(rows, base, exclude, k);
    if i in Blockers(rows, base, exclude, k + 1) {
      var j :| k + 1 <= j && Candidate(base, j) == rows[i].slug;
      CandidatesDistinct(base, j, k);
    }
  }

  /** A hit at k followed by hits from k + 1 to n is a run of hits from k to n. */
  lemma HitsExtend(rows: seq<Article>, base: string, exclude: Option<nat>, k: nat, n: nat)
    requires Hit(rows, base, exclude, k)
    requires forall j :: k + 1 <= j < n ==> Hit(rows, base, exclude, j)
    ensures forall j :: k <= j < n ==> Hit(rows, base, exclude, j)
  {
  }

  /** The index of the first free candidate at or after `k`. */
  function ProbeFrom(rows: seq<Article>, base: string, exclude: Option<nat>, k: nat): (n: nat)
    ensures k <= n
    ensures !Hit(rows, base, exclude, n)
    ensures forall j :: k <= j < n ==> Hit(rows, base, exclude, j)
    decreases Blockers(rows, base, exclude, k)
  {
    if Hit(rows, base, exclude, k) then
      BlockersShrink(rows, base, exclude, k);
      var n := ProbeFrom(rows, base, exclude, k + 1);
      HitsExtend(rows, base, exclude, k, n);
      n
    else
      k
  }

  /** Hits past the base are hits on the suffixed strings `base-j`. */
  lemma HitsAsSuffixes(rows: seq<Article>, base: string, exclude: Option<nat>, n: nat)
    requires forall j :: 0 <= j < n ==> Hit(rows, base, exclude, j)
    ensures forall j :: 1 <= j < n ==> Taken(rows, base + "-" + NatToString(j), exclude)
  {
    forall j | 1 <= j < n
      ensures Taken(rows, base + "-" + NatToString(j), exclude)
    {
      assert Hit(rows, base, exclude, j);
    }
  }

  /** The slug `generateUniqueSlug` returns for a base slug and an optional id to exclude. */
  function UniqueSlug(rows: seq<Article>, base: string, exclude: Option<nat>): (r: string)
    ensures !Taken(rows, r, exclude)
    ensures !Taken(rows, base, exclude) ==> r == base
    ensures Taken(rows, base, exclude) ==>
      exists k :: 1 <= k && r == base + "-" + NatToString(k)
        && forall j :: 1 <= j < k ==> Taken(rows, base + "-" + NatToString(j), exclude)
  {
    var n := ProbeFrom(rows, base, exclude, 0);
    HitsAsSuffixes(rows, base, exclude, n);
    assert Taken(rows, base, exclude) ==> 1 <= n && Candidate(base, n) == base + "-" + NatToString(n);
    Candidate(base, n)
  }

  /** The returned slug is exactly the first free candidate, in both directions. */
  lemma UniqueSlugIsFirstFree(rows: seq<Article>, base: string, exclude: Option<nat>, s: string)
    ensures s == UniqueSlug(rows, base, exclude)
        <==> exists k :: FirstFree(rows, base, exclude, k) && s == Candidate(base, k)
  {
    var n := ProbeFrom(rows, base, exclude, 0);
    assert FirstFree(rows, base, exclude, n);
    if k :| FirstFree(rows, base, exclude, k) && s == Candidate(base, k) {
      FirstFreeUnique(rows, base, exclude, k, n);
    }
  }

  /** |Blockers| drops by one per hit, so after k hits at least k blockers were used up. */
  lemma {:induction false} BlockersCount(rows: seq<Article>, base: string, exclude: Option<nat>, k: nat)
    requires forall j :: 0 <= j < k ==> Hit(rows, base, exclude, j)
    ensures |Blockers(rows, base, exclude, k)| + k <= |Blockers(rows, base, exclude, 0)|
  {
    if k > 0 {
      BlockersCount(rows, base, exclude, k - 1);
      BlockersShrink(rows, base, exclude, k - 1);
      StrictSubsetCard(Blockers(rows, base, exclude, k), Blockers(rows, base, exclude, k - 1));
    }
  }

  /** A strict subset is strictly smaller. */
  lemma StrictSubsetCard(a: set<int>, b: set<int>)
    requires a < b
    ensures |a| < |b|
  {
    assert b == a + (b - a);
    assert b - a != {};
  }

  /** A set of indices below n has at most n elements. */
  lemma {:induction false} IndexSetCard(s: set<int>, n: nat)
    requires forall i :: i in s ==> 0 <= i < n
    ensures |s| <= n
  {
    if n > 0 {
      IndexSetCard(s - {n - 1}, n - 1);
      assert s <= (s - {n - 1}) + {n - 1};
    } else {
      assert forall i :: i !in s;
    }
  }

  /** The probe stops within |rows| + 1 tries: the returned suffix is at most |rows|. */
  lemma ProbeBound(rows: seq<Article>, base: string, exclude: Option<nat>)
    ensures ProbeFrom(rows, base, exclude, 0) <= |rows|
  {
    var n := ProbeFrom(rows, base, exclude, 0);
    BlockersCount(rows, base, exclude, n);
    IndexSetCard(Blockers(rows, base, exclude, 0), |rows|);
  }

  /** The loop of `generateUniqueSlug`, probe by probe. */
  method GenerateUniqueSlug(rows: seq<Article>, base: string, exclude: Option<nat>) returns (slug: string)
    ensures slug == UniqueSlug(rows, base, exclude)
    ensures !Taken(rows, slug, exclude)
    ensures !Taken(rows, base, exclude) ==> slug == base
  {
    slug := base;
    var counter: nat := 1;
    while Taken(rows, slug, exclude)
      invariant 1 <= counter
      invariant slug == Candidate(base, counter - 1)
      invariant forall j :: 0 <= j < counter - 1 ==> Hit(rows, base, exclude, j)
      decreases Blockers(rows, base, exclude, counter - 1)
    {
      assert Hit(rows, base, exclude, counter - 1);
      BlockersShrink(rows, base, exclude, counter - 1);
      slug := base + "-" + NatToString(counter);
      counter := counter + 1;
    }
    assert FirstFree(rows, base, exclude, counter - 1);
    UniqueSlugIsFirstFree(rows, base, exclude, slug);
  }
}

=== FILE: store.dfy ===
/** The article table as the controller sees it through the ORM: rows in
    insertion order (so a later row is a more recent article, standing in for
    `created_at`) and the auto-increment counter that hands out ids. */
module ArticleStore {
  import opened Common

  /** One article record. `author` is the id of the user who created it;
      `image` is the stored file's relative path, or null. */
  datatype Article = Article(
    id: nat,
    title: string,
    slug: string,
    content: string,
    image: Option<string>,
    author: nat)

  datatype Db = Db(rows: seq<Article>, nextId: nat)

  /** The empty table; auto-increment ids start at 1. */
  const Empty: Db := Db([], 1)

  /** Whether the slug query leaves out the row with this id. The id filter
      applies only when the id to exclude is truthy in PHP, that is, neither
      null nor 0. */
  predicate Excluded(exclude: Option<nat>, id: nat) {
    exclude.Some? && exclude.value != 0 && id == exclude.value
  }

  /** Whether some row other than the excluded one holds `slug`. */
  predicate Taken(rows: seq<Article>, slug: string, exclude: Option<nat>) {
    exists i :: 0 <= i < |rows| && rows[i].slug == slug && !Excluded(exclude, rows[i].id)
  }

  /** No two rows share a slug. */
  predicate SlugsUnique(rows: seq<Article>) {
    forall i, j :: 0 <= i < |rows| && 0 <= j < |rows| && rows[i].slug == rows[j].slug ==> i == j
  }

  /** No two rows share an id. */
  predicate IdsUnique(rows: seq<Article>) {
    forall i, j :: 0 <= i < |rows| && 0 <= j < |rows| && rows[i].id == rows[j].id ==> i == j
  }

  /** The counter starts at 1, and every id is positive and was handed out by it already. */
  predicate IdsIssued(db: Db) {
    1 <= db.nextId && forall i :: 0 <= i < |db.rows| ==> 1 <= db.rows[i].id < db.nextId
  }

  /** The invariant the controller keeps: unique slugs, unique issued ids. */
  predicate Valid(db: Db) {
    SlugsUnique(db.rows) && IdsUnique(db.rows) && IdsIssued(db)
  }

  /** The first row satisfying `p`, as a query with `->first()` returns it. */
  function FirstWhere(rows: seq<Article>, p: Article -> bool): (r: Option<nat>)
    ensures r.Some? ==> r.value < |rows| && p(rows[r.value])
    ensures r.Some? ==> forall k :: 0 <= k < r.value ==> !p(rows[k])
    ensures r.None? <==> forall k :: 0 <= k < |rows| ==> !p(rows[k])
  {
    if |rows| == 0 then None
    else if p(rows[0]) then Some(0)
    else match FirstWhere(rows[1..], p)
      case None => None
      case Some(k) => Some(k + 1)
  }

  /** The row with the given id (route-model binding by primary key). */
  function FindById(rows: seq<Article>, id: nat): Option<nat> {
    FirstWhere(rows, (a: Article) => a.id == id)
  }

  /** The row with the given slug (`Article::where('slug', $slug)->first()`). */
  function FindBySlug(rows: seq<Article>, slug: string): Option<nat> {
    FirstWhere(rows, (a: Article) => a.slug == slug)
  }

  /** The positions below `hi` of the rows whose id is not `id`, in increasing order. */
  function Kept(rows: seq<Article>, id: nat, hi: nat): (f: seq<nat>)
    requires hi <= |rows|
    ensures |f| <= hi
    ensures forall x :: 0 <= x < |f| ==> f[x] < hi && rows[f[x]].id != id
    ensures forall x, y :: 0 <= x < y < |f| ==> f[x] < f[y]
    ensures forall k :: 0 <= k < hi && rows[k].id != id ==> k in f
  {
    if hi == 0 then []
    else if rows[hi - 1].id != id then Kept(rows, id, hi - 1) + [hi - 1]
    else Kept(rows, id, hi - 1)
  }

  /** `r` is `rows` with exactly the rows of id `id` taken out and the others
      kept in their original relative order; `f` maps each position of `r` to
      the position in `rows` it came from. */
  ghost predicate OrderedRemoval(rows: seq<Article>, id: nat, r: seq<Article>, f: seq<nat>) {
    && |f| == |r|
    && (forall x :: 0 <= x < |f| ==> f[x] < |rows| && r[x] == rows[f[x]] && rows[f[x]].id != id)
    && (forall x, y :: 0 <= x < y < |f| ==> f[x] < f[y])
    && (forall k :: 0 <= k < |rows| && rows[k].id != id ==> k in f)
  }

  /** The rows left after `DELETE ... WHERE id = ?`, in their original order. */
  function Without(rows: seq<Article>, id: nat): (r: seq<Article>)
    ensures |r| <= |rows|
    ensures exists f :: OrderedRemoval(rows, id, r, f)
    ensures forall a :: a in r <==> a in rows && a.id != id
  {
    var f := Kept(rows, id, |rows|);
    var r := seq(|f|, (x: int) requires 0 <= x < |f| => rows[f[x]]);
    assert OrderedRemoval(rows, id, r, f);
    assert forall a :: a in rows && a.id != id ==> a in r by {
      forall a | a in rows && a.id != id
        ensures a in r
      {
        var k :| 0 <= k < |rows| && rows[k] == a;
        var x :| 0 <= x < |f| && f[x] == k;
        assert r[x] == a;
      }
    }
    r
  }

  /** With unique ids, exactly the one row holding `id` sits outside the kept positions. */
  lemma {:induction false} KeptCount(rows: seq<Article>, id: nat, i: nat, hi: nat)
    requires IdsUnique(rows)
    requires i < |rows| && rows[i].id == id
    requires hi <= |rows|
    ensures |Kept(rows, id, hi)| == if i < hi then hi - 1 else hi
  {
    if hi > 0 {
      KeptCount(rows, id, i, hi - 1);
    }
  }

  /** Deleting by id removes exactly one row when ids are unique and one row has it. */
  lemma WithoutCount(rows: seq<Article>, id: nat, i: nat)
    requires IdsUnique(rows)
    requires i < |rows| && rows[i].id == id
    ensures |Without(rows, id)| == |rows| - 1
  {
    KeptCount(rows, id, i, |rows|);
  }

  /** Deletion keeps slugs unique: two kept rows with one slug come from one position. */
  lemma WithoutSlugsUnique(rows: seq<Article>, id: nat)
    requires SlugsUnique(rows)
    ensures SlugsUnique(Without(rows, id))
  {
    var r := Without(rows, id);
    var f :| OrderedRemoval(rows, id, r, f);
    forall x, y | 0 <= x < |r| && 0 <= y < |r| && x != y
      ensures r[x].slug != r[y].slug
    {
      assert f[x] != f[y];
    }
  }

  /** Deletion keeps ids unique. */
  lemma WithoutIdsUnique(rows: seq<Article>, id: nat)
    requires IdsUnique(rows)
    ensures IdsUnique(Without(rows, id))
  {
    var r := Without(rows, id);
    var f :| OrderedRemoval(rows, id, r, f);
    forall x, y | 0 <= x < |r| && 0 <= y < |r| && x != y
      ensures r[x].id != r[y].id
    {
      assert f[x] != f[y];
    }
  }
}

=== FILE: validation.dfy ===
/** The request validation shared by `store` and `update`:
    `title` required|min:5|max:255, `content` required. */
module Validation {
  import opened Common

  datatype Field = TitleField | ContentField

  datatype Rule = Required | Min | Max

  /** One failed rule on one field, as the validator reports it back to the form. */
  datatype Violation = Violation(field: Field, rule: Rule)

  /** The validated input handed on to the handler body. */
  datatype Input = Input(title: string, content: string)

  const TitleMin: nat := 5
  const TitleMax: nat := 255

  /** The characters PHP's `trim` strips by default: space, tab, newline,
      carriage return, NUL and vertical tab. */
  predicate IsTrimmed(c: char) {
    c == ' ' || c == '\t' || c == '\n' || c == '\r' || c == '\0' || c == 11 as char
  }

  predicate IsBlank(s: string) {
    forall i :: 0 <= i < |s| ==> IsTrimmed(s[i])
  }

  /** The `required` rule: the field is present and not blank after trimming. */
  predicate Filled(v: Option<string>) {
    v.Some? && !IsBlank(v.value)
  }

  /** The title's failed rules. Once `required` fails, the validator stops
      checking the field, so a missing or blank title reports only `required`;
      string size is counted in characters. */
  function TitleViolations(title: Option<string>): set<Violation> {
    if !Filled(title) then {Violation(TitleField, Required)}
    else
      (if |title.value| < TitleMin then {Violation(TitleField, Min)} else {})
      + (if |title.value| > TitleMax then {Violation(TitleField, Max)} else {})
  }

  function ContentViolations(content: Option<string>): set<Violation> {
    if !Filled(content) then {Violation(ContentField, Required)} else {}
  }

  /** `$request->validate([...])` for the title and content fields. */
  function Validate(title: Option<string>, content: Option<string>): (r: Result<Input, set<Violation>>)
    ensures r.Ok? <==> Filled(title) && TitleMin <= |title.value| <= TitleMax && Filled(content)
    ensures r.Ok? ==> r.value == Input(title.value, content.value)
    ensures r.Err? ==> r.error != {}
    ensures r.Err? ==> (Violation(TitleField, Required) in r.error <==> !Filled(title))
    ensures r.Err? ==> (Violation(TitleField, Min) in r.error <==> Filled(title) && |title.value| < TitleMin)
    ensures r.Err? ==> (Violation(TitleField, Max) in r.error <==> Filled(title) && |title.value| > TitleMax)
    ensures r.Err? ==> (Violation(ContentField, Required) in r.error <==> !Filled(content))
    ensures r.Err? ==> forall v :: v in r.error ==> v.field == TitleField || v.rule == Required
  {
    var errors := TitleViolations(title) + ContentViolations(content);
    if errors == {} then Ok(Input(title.value, content.value)) else Err(errors)
  }
}
